=== FILE: README.md ===
# Replace mode of a Vim emulator, in Dafny

This project models the Replace-mode command set of the VSCodeVim editor
extension (`R` in Normal mode, then type over the text). Four actions are
registered for `Mode.Replace`:

- **ExitReplaceMode** (`<Esc>`, `<C-c>`, `<C-[>`): with a count (`3Rabc`) it
  queues one insertion of the typed text repeated `count - 1` times, with a
  cursor diff of -1. Without a count it moves the cursor one column left. In
  both cases it then switches to Normal mode.
- **ReplaceModeToInsertMode** (`<Insert>`): switches to Insert mode.
- **BackspaceInReplaceMode** (`<BS>`, `<C-h>`): at or before the replace
  origin it moves the origin left. Past the text that existed when replacing
  began, it deletes the character left of the cursor. Otherwise it puts back
  the original character. Each time it pops the stack of typed keys.
- **ReplaceInReplaceMode** (`<character>`, the only dot-repeatable one): it
  overwrites the character under the cursor and steps right. At the end of
  the line, or for a newline key, it inserts instead. The key is pushed onto
  the stack of typed keys.

Layout:

- `wrappers.dfy`, `modes.dfy`, `positions.dfy`, `transformations.dfy`,
  `strings.dfy` hold the value types the commands use: `Option`, `Mode`,
  `Position`/`Range`/`PositionDiff`, the three transformation kinds, and
  JavaScript's `join('')` and `repeat`.
- `replace.dfy` (module `ReplaceCommands`) holds `ReplaceState` and `VimState`
  as classes whose fields the `exec` methods update. Each `Exec…` method is
  proved equal, through `VimState.Snapshot()`, to a pure step function on a
  `Session` value. The module also holds the registration data and lemmas
  about the step functions. The same file holds the module
  `ReplaceCommandsClient`, a caller that runs the `exec` methods on one
  concrete line and states the queued transformations and stacks.
- `pipeline.dfy` (module `LinePipeline`) is a single-line reading of the
  transformer pipeline. It applies a command's queued transformations to one
  line of text and resolves the cursor. This lets the model state what a
  sequence of keys does to the text: typing then backspacing gives the line
  back, and `{n}R` followed by `<Esc>` leaves the typed text `n` times in a
  row.

## Model

| member | source | states |
|---|---|---|
| ReplaceCommands.ExitReplaceMode | src/actions/commands/replace.ts:13-29 | The mode becomes Normal and the replace state is kept. With timesToRepeat > 1, exactly one insertText is queued at the position: join('') of the typed keys, repeated timesToRepeat - 1 times, with diff -1. The cursor is then left as it was. Otherwise nothing is queued and the cursor stop moves one column left. |
| ReplaceCommands.ExecExitReplaceMode | src/actions/commands/replace.ts:13-29 | The new VimState snapshot is ExitReplaceMode of the old one. The same ReplaceState object stays attached. |
| ReplaceCommands.ReplaceModeToInsertMode | src/actions/commands/replace.ts:37-39 | The mode becomes Insert and nothing else in the session changes. |
| ReplaceCommands.ExecReplaceModeToInsertMode | src/actions/commands/replace.ts:37-39 | The new VimState snapshot is ReplaceModeToInsertMode of the old one. |
| ReplaceCommands.Pop | src/actions/commands/replace.ts:74 | Array pop as a value: a non-empty stack loses exactly its last element, and an empty stack stays empty. |
| ReplaceCommands.PastOriginalText | src/actions/commands/replace.ts:56-59 | After the origin and not beyond the original text, the column before the cursor indexes originalChars, so the read at line 68 is in bounds. |
| ReplaceCommands.BackspaceInReplaceMode | src/actions/commands/replace.ts:47-75 | As written. In every branch the newChars stack is popped, originalChars and timesToRepeat are kept, and cursorStopPosition is unchanged. At or before the origin, the selection start and the origin move to position.getLeft() and nothing is queued. Beyond the original text (a later line or a column past its length), deleteText(position) is queued. Otherwise 1 <= column <= length of originalChars, and replaceText of the original character at column - 1 over [getLeft, position] is queued with diff -1. |
| ReplaceCommands.ExecBackspaceInReplaceMode | src/actions/commands/replace.ts:47-75 | The new VimState snapshot, including the ReplaceState it points to, is BackspaceInReplaceMode of the old one. |
| ReplaceCommands.BackspaceIntended | src/actions/commands/replace.ts:47-75 | The corrected command. The mode is kept, newChars is popped, and originalChars and timesToRepeat are kept. At or before the origin, the cursor stop, the selection start and the origin all become position.getLeft() and nothing is queued. After the origin, the cursor and origin stay; beyond the original text deleteText(position) is queued, and otherwise 1 <= column <= length of originalChars and replaceText of the original character at column - 1 over [getLeft, position] is queued with diff -1. |
| ReplaceCommands.IntendedAgreesAwayFromOrigin | src/actions/commands/replace.ts:56-75 | After the origin, the corrected command and the command as written give the same session. |
| ReplaceCommands.IntendedDiffersAtOriginInStopOnly | src/actions/commands/replace.ts:52-54 | For any input, the corrected command and the command as written differ at most in the cursor stop position. |
| ReplaceCommands.ReplaceInReplaceMode | src/actions/commands/replace.ts:84-104 | The key is pushed onto newChars and nothing else in the replace state changes. Exactly one transformation is appended. Away from the line end and for a key other than a newline, it is replaceText of the key over [position, one column right] with diff +1. Otherwise it is insertText of the key at the position with no diff. Mode and cursor are unchanged. |
| ReplaceCommands.ExecReplaceInReplaceMode | src/actions/commands/replace.ts:84-104 | The new VimState snapshot, including its ReplaceState, is ReplaceInReplaceMode of the old one. |
| ReplaceCommands.ReplaceActionsRegistration | src/actions/commands/replace.ts:10-82 | Every Replace-mode action is enabled in Replace mode only. Exactly the character-typing action can be repeated with dot. |
| ReplaceCommands.ReplaceActionKeysDisjoint | src/actions/commands/replace.ts:11-81 | No declared key pattern is shared by two of the four actions. `<character>` is a wildcard pattern and is compared only as a pattern. |
| ReplaceCommands.BackspaceAtOriginSplitsCursor | src/actions/commands/replace.ts:52-54 | As written, <BS> with a collapsed cursor at the origin (column > 0) moves the selection start. The stop position stays, so the two come apart. |
| ReplaceCommands.IntendedBackspaceKeepsCursorTogether | src/actions/commands/replace.ts:49-55 | With the intended assignment, a collapsed cursor stays collapsed in every branch. At the origin it moves one column left together with the origin. |
| ReplaceCommands.TypeThenBackspaceRestoresStack | src/actions/commands/replace.ts:74-103 | A push by a typed key followed by a backspace's pop leaves the stack of typed keys as it was. |
| Strings.Join | src/actions/commands/replace.ts:20 | The length of join('') is the sum of the parts' lengths. |
| Strings.JoinOfCharacters | src/actions/commands/replace.ts:20 | Joining single-character keys gives one character per key. |
| Strings.JoinAppend | src/actions/commands/replace.ts:20 | join distributes over concatenation of the arrays. |
| Strings.JoinPush | src/actions/commands/replace.ts:20 | Pushing a key onto the array appends it to the join. |
| Strings.Repeat | src/actions/commands/replace.ts:20 | repeat(n) has n times the length of the string. |
| Strings.RepeatAppend | src/actions/commands/replace.ts:20 | repeat(a + b) is repeat(a) followed by repeat(b). |
| Positions.Position.IsBeforeOrEqual | src/actions/commands/replace.ts:49 | A position is before or equal to itself. A true answer means a line at most the other's. On the same line it holds exactly when the column is at most the other's. |
| Positions.Position.IsLineEnd | src/actions/commands/replace.ts:88 | A position is not at the line end exactly when a character of the line lies under it. |
| Positions.Position.GetLeft | src/actions/commands/replace.ts:25 | Same line, one column left, staying at column 0. Never after the original position. |
| Positions.Position.GetRight | src/actions/commands/replace.ts:92 | Same line, one column right unless at the line end, where it stays. Never before the original position. |
| Positions.BeforeOrEqualIsTotalOrder | src/actions/commands/replace.ts:49 | isBeforeOrEqual is reflexive, antisymmetric, transitive and total. |
| Positions.LeftRightInverse | src/actions/commands/replace.ts:69 | getLeft undoes getRight away from the line end. getRight undoes getLeft within the line away from column 0. |
| LinePipeline.Splice | src/actions/commands/replace.ts:88-94 | Replacing a span changes the length by the length difference. A cursor before the span stays. A cursor at or after its end shifts by the length difference. |
| LinePipeline.SpliceKeepsOutside | src/actions/commands/replace.ts:88-94 | A splice keeps the text before and after the replaced span and puts the new text in between. |
| LinePipeline.Apply | src/actions/commands/replace.ts:18-23 | A transformation applies exactly when its columns exist on the line. insertText grows the line by its text, deleteText shrinks it by one, and replaceText changes it by the length difference. |
| LinePipeline.ApplyBatch | src/actions/commands/replace.ts:18 | Draining the queue that addTransformation fills: every queued transformation is reported as applied or as dropped. |
| LinePipeline.ApplyBatchPartitions | src/actions/commands/replace.ts:18 | The applied and the dropped transformations together are exactly the queue: none is lost, none is counted twice. |
| LinePipeline.ApplyBatchKeepsQueueOrder | src/actions/commands/replace.ts:18 | The queue is the applied list and the dropped list merged, each in queue order. |
| LinePipeline.ApplyBatchReplaysApplied | src/actions/commands/replace.ts:18 | Replaying just the applied transformations in order, each on its predecessors' text, gives the resulting line. The cursor shift is the sum of their diffs. |
| LinePipeline.ApplyBatchWhenAllFit | src/actions/commands/replace.ts:18 | Nothing is dropped exactly when the whole queue replays in order. The result is then that replay, with every transformation applied and all diffs summed. |
| LinePipeline.ApplyBatchExtend | src/actions/commands/replace.ts:18 | The general rule, for any queue and one more transformation after it: if it fits the text the queue left, it is applied after the others and its diff is added; otherwise it is dropped after the others and the line, cursor and shift stay. |
| LinePipeline.ApplyBatchWhenNoneFit | src/actions/commands/replace.ts:18 | A queue none of whose transformations fits leaves the line and cursor as they were, reports all of them as dropped and asks for no cursor shift. |
| LinePipeline.BatchDropsOnlyWhatDoesNotFit | src/actions/commands/replace.ts:18 | A fitting edit followed by one that no longer fits after it: the first applies, only the second is dropped, and only the first's diff counts. |
| LinePipeline.BatchAppliesPastWhatDoesNotFit | src/actions/commands/replace.ts:18 | An edit that does not fit followed by one that does: the first is dropped and the second still applies, with its diff. |
| LinePipeline.Commit | src/actions/commands/replace.ts:18-23 | After a command, the batch is emptied and the mode and replace state are kept. An empty batch changes nothing. |
| LinePipeline.Press | src/actions/commands/replace.ts:10 | Outside Replace mode none of these commands handles a key, so the editor is unchanged. The line being edited never changes. |
| LinePipeline.PressBackspaceAsWritten | src/actions/commands/replace.ts:56-75 | After the origin, <BS> in the editor is the as-written command followed by the commit. |
| LinePipeline.PressInReplaceMode | src/actions/commands/replace.ts:8-105 | In Replace mode, a key runs its command at the cursor and then its batch is committed. |
| LinePipeline.PressOverwrites | src/actions/commands/replace.ts:88-94 | A printable key on an existing character replaces that one character and moves the cursor one right. The key is pushed and everything else is kept. |
| LinePipeline.PressAppends | src/actions/commands/replace.ts:95-100 | A printable key at the line end is appended and the cursor moves past it. |
| LinePipeline.PressDeletes | src/actions/commands/replace.ts:56-64 | <BS> after the origin and past the original text removes the character left of the cursor, moves the cursor one left and pops the stack. |
| LinePipeline.PressRestores | src/actions/commands/replace.ts:65-71 | <BS> after the origin and within the original text puts the original character back left of the cursor, moves the cursor one left and pops the stack. |
| LinePipeline.PressExitRepeats | src/actions/commands/replace.ts:17-23 | <Esc> with a count above one inserts count - 1 copies of the typed text at the cursor. The cursor rests on the last inserted character and the mode is Normal. |
| LinePipeline.TypeOne | src/actions/commands/replace.ts:84-104 | From the replace origin, one more printable key overwrites the next original character, or extends the line past its end. |
| LinePipeline.BackspaceOne | src/actions/commands/replace.ts:47-75 | <BS> right after a typed key undoes exactly that key: text, cursor and stack. There the cursor is past the origin, so this is also what the command as written does. |
| LinePipeline.TypeMany | src/actions/commands/replace.ts:84-104 | Typing any run of printable keys reaches the editor whose text has them written over the original, starting at the origin. |
| LinePipeline.BackspaceMany | src/actions/commands/replace.ts:47-75 | One <BS> per typed key undoes all of them. |
| LinePipeline.ReplaceThenBackspaceRestores | src/actions/commands/replace.ts:47-104 | For any line, origin and printable text, typing the text and then pressing <BS> once per key gives back the original line, cursor and empty stack. This holds also when the text runs past the end of the line. |
| LinePipeline.ExitRepeatsTypedText | src/actions/commands/replace.ts:16-23 | `{n}R` with n > 1, typing a non-empty text, then <Esc>: the line holds the original prefix, the text n times and the rest of the original. The cursor is on column start + n·len - 1 and the mode is Normal. |
| LinePipeline.ExitWithoutRepeatStepsLeft | src/actions/commands/replace.ts:24-28 | Without a count, <Esc> keeps the text, moves the cursor stop one left and sets Normal mode. |
| LinePipeline.InsertKeyOnlySwitchesMode | src/actions/commands/replace.ts:37-39 | In Replace mode with an empty queue, <Insert> changes the mode to Insert and nothing else, whether or not a replace state exists. |
| LinePipeline.OverwriteThenBackspaceExample | src/actions/commands/replace.ts:88-94 | On "abc" with the cursor on 'b', X gives "aXc" with the cursor on 'c'. <BS> then gives back "abc" with the cursor on 'b'. |
| ReplaceCommandsClient.OverwriteThenBackspace | src/actions/commands/replace.ts:13-104 | Through the exec methods, on "abc" with the origin on 'b': X queues replaceText "X" over columns 1-2 with diff +1 and pushes "X". <BS> from column 2 queues replaceText "b" over columns 1-2 with diff -1, pops the stack and stays in Replace mode. <Esc> without a count moves the cursor to column 0 in Normal mode and queues nothing. |
| LinePipeline.RepeatReplaceExample | src/actions/commands/replace.ts:16 | `3R` on "ab", typing "xy", then <Esc> gives "xyxyxy" with the cursor on column 5. |

## Left out

- `extension.ts` (activation and host lifecycle) is not part of this model: it does not touch Replace mode.
- The `async`/`await` of the `exec` methods is dropped: each method runs to completion.
- `VimState.setCurrentMode` is not part of this model. The model assigns the mode and nothing else. Any other effect it has is not captured, for example on `replaceState` or on the cursor.
- The `@RegisterAction` decorator and `BaseCommand` are not part of this model. Registration is the constant data in `ReplaceActions`. The flat key lists `['<Insert>']` and `['<character>']` are written as one sequence of one key.
- Key matching is not modelled. What `<character>` matches, and `keysPressed[0]`, are the `key` parameter of `ExecReplaceInReplaceMode`.
- The vscode `Position` and `Range` classes are abstracted to pairs of naturals. `getLeft` stays at column 0, `getRight` stays at the line end, and `isLineEnd` means a column at or past the line length. The line length, which the editor would read from the document, is a parameter.
- `ReplaceState` and `VimState` fields outside the four commands are not modelled. `recordedState.transformer` is flattened to the `transformations` sequence. The two constructors are conveniences of this model.
- The transformer pipeline is not part of the Replace-mode files. `LinePipeline` is one reading of it, limited to a single line. It ignores `diff.line`, clamps the cursor at column 0, and treats a `deleteText` at column 0 (a line join) as not fitting.
- LinePipeline.ApplyBatch: reads each queued transformation's columns, and tests whether it fits, against the text the earlier transformations of the same batch left. The editor computes every target in a batch from the text as it was before the batch. On "xy", inserting "a" at column 0 and then "b" at column 1 gives "abxy" here but "axby" in the editor; on "x", inserting at column 1 and then deleting at column 2 drops nothing here, although column 2 does not exist before the batch. This matters only for batches of two or more transformations, which no Replace-mode command queues for one key, so `Press` and the lemmas built on it are unaffected; the batch lemmas describe this model's sequential reading.
- LinePipeline.Press: a newline key is inserted as a character of the one-line text; splitting the line is not modelled. Keys other than the four commands' keys are not modelled.
- LinePipeline.Press: runs `BackspaceIntended`, not the as-written backspace. The two differ only at or before the origin (`IntendedDiffersAtOriginInStopOnly`). After the origin `PressBackspaceAsWritten` shows they agree, so `BackspaceOne` and the lemmas built on it also hold for the command as written.
- LinePipeline.Press: in Replace mode with no replace state, `<Insert>` still switches to Insert mode, but the other keys leave the editor unchanged. The non-null `!` on `replaceState` is erased at run time, so the source instead throws a TypeError at the first dereference: `replaceState.timesToRepeat` (replace.ts line 17), `replaceState.replaceCursorStartPosition` (line 49) or `replaceState.newChars.push` (line 103). The character command has by then already queued its replaceText or insertText (lines 88-101); what the caller does with that queue after the error is outside the Replace-mode files. The model represents neither the error nor that partial queue.
- Columns, line lengths and the length of `originalChars` count Unicode scalar values (Dafny's `char`). VS Code positions and `split('')` count UTF-16 code units, so a character outside the Basic Multilingual Plane takes two columns in the source and one here. Backspacing over half of such a character, and `Printable`'s one-character key, are therefore not modelled as the editor sees them.
- Strings.Repeat: `repeat` with a count too large for a JavaScript string (a RangeError) is not modelled; counts are unbounded naturals.

## Findings

| source | as written | input that shows it | evidently intended | confidence | as-written member | corrected member |
|---|---|---|---|---|---|---|
| src/actions/commands/replace.ts:53 | The new position is assigned to `vimState.c1rsorStopPosition`, a misspelt property that no code shown here reads. This reading assumes the file compiles: TypeScript rejects the assignment unless `VimState` declares that name, and `VimState`'s declaration is not part of this model. The cursor's stop position keeps its old value while its start position moves left. | A collapsed cursor at (0,3) with the replace origin at (0,3), then <BS>: the start becomes (0,2) and the stop stays at (0,3). | `vimState.cursorStopPosition = newPosition`: the cursor moves one column left together with the origin. | high; not executed | ReplaceCommands.BackspaceAtOriginSplitsCursor | ReplaceCommands.IntendedBackspaceKeepsCursorTogether |

=== FILE: modes.dfy ===
/** The editing modes; exactly one is active per session. */
module Modes {
  datatype Mode =
    | Normal
    | Insert
    | Visual
    | VisualBlock
    | VisualLine
    | SearchInProgressMode
    | CommandlineInProgress
    | Replace
}

=== FILE: pipeline.dfy ===
/**
 * A single-line abstraction of the transformer pipeline, enough to run the
 * Replace-mode commands key by key and state what a sequence of keys does
 * to the text. The pipeline is not part of the Replace-mode command set; the
 * rules here are this model's reading of it:
 *
 *  - the queued transformations are applied in the order they were queued,
 *    each to the text the previous ones left, and each one's columns are read
 *    against that text; one that does not fit the line is dropped and
 *    reported, the rest still apply (ApplyBatchExtend). The editor instead
 *    reads every column of a batch against the text as it was before the
 *    batch. The two readings differ only for batches of two or more, and no
 *    Replace-mode command queues more than one transformation per key;
 *  - the cursor follows each edit the way an editor carries a collapsed
 *    selection (at or after the replaced span: it shifts with the text;
 *    before it: it stays; inside it: it goes to the end of the new text);
 *  - only then are the cursor diffs of the applied transformations added.
 */
module LinePipeline {
  import opened Wrappers
  import opened Strings
  import opened Positions
  import opened Modes
  import opened Transformations
  import opened ReplaceCommands

  /** One line of text and the column of the cursor on it. */
  datatype LineState = LineState(text: string, cursor: nat)

  /** Replace `text[start..stop]` by `ins`, carrying the cursor along. */
  function Splice(line: LineState, start: nat, stop: nat, ins: string): (r: LineState)
    requires start <= stop <= |line.text|
    ensures |r.text| == |line.text| - (stop - start) + |ins|
    ensures line.cursor <= start && line.cursor < stop ==> r.cursor == line.cursor
    ensures line.cursor >= stop ==> r.cursor + (stop - start) == line.cursor + |ins|
  {
    var text := line.text[..start] + ins + line.text[stop..];
    LineState(text,
      if line.cursor >= stop then line.cursor - (stop - start) + |ins|
      else if line.cursor <= start then line.cursor
      else start + |ins|)
  }

  /** A splice changes the replaced span only: the text before and after it is kept. */
  lemma SpliceKeepsOutside(line: LineState, start: nat, stop: nat, ins: string)
    requires start <= stop <= |line.text|
    ensures var r := Splice(line, start, stop, ins);
      && r.text[..start] == line.text[..start]
      && r.text[start..start + |ins|] == ins
      && r.text[start + |ins|..] == line.text[stop..]
  {
    var text := Splice(line, start, stop, ins).text;
    assert text == line.text[..start] + ins + line.text[stop..];
    assert text[start..start + |ins|] == ins;
    assert text[start + |ins|..] == line.text[stop..];
  }

  /** The transformation targets columns that exist on line `lineNumber` of `text`. */
  predicate Fits(text: string, lineNumber: nat, t: Transformation)
  {
    match t
    case InsertText(_, p, _) => p.line == lineNumber && p.character <= |text|
    case DeleteText(p) => p.line == lineNumber && 0 < p.character <= |text|
    case ReplaceText(_, range, _) =>
      range.start.line == lineNumber && range.stop.line == lineNumber
      && range.start.character <= range.stop.character <= |text|
  }

  /** Apply one transformation's edit (not its cursor diff); `None` when it does not fit. */
  function Apply(line: LineState, lineNumber: nat, t: Transformation): (r: Option<LineState>)
    ensures r.Some? <==> Fits(line.text, lineNumber, t)
    ensures r.Some? && t.InsertText? ==> |r.value.text| == |line.text| + |t.text|
    ensures r.Some? && t.DeleteText? ==> |r.value.text| + 1 == |line.text|
    ensures r.Some? && t.ReplaceText? ==>
      |r.value.text| + (t.range.stop.character - t.range.start.character) == |line.text| + |t.text|
  {
    if !Fits(line.text, lineNumber, t) then None
    else match t
      case InsertText(ins, p, _) => Some(Splice(line, p.character, p.character, ins))
      case DeleteText(p) => Some(Splice(line, p.character - 1, p.character, ""))
      case ReplaceText(ins, range, _) => Some(Splice(line, range.start.character, range.stop.character, ins))
  }

  /** The column shift a transformation asks for once the batch is applied. */
  function Shift(t: Transformation): int
  {
    match t
    case InsertText(_, _, Some(d)) => d.character
    case ReplaceText(_, _, Some(d)) => d.character
    case _ => 0
  }

  /** Applying every transformation in order, failing as soon as one does not fit. */
  function Replay(line: LineState, lineNumber: nat, ts: seq<Transformation>): Option<LineState>
    decreases |ts|
  {
    if ts == [] then Some(line)
    else
      match Apply(line, lineNumber, ts[0])
      case None => None
      case Some(next) => Replay(next, lineNumber, ts[1..])
  }

  /** The summed cursor shifts of `ts`. */
  function TotalShift(ts: seq<Transformation>): int
    decreases |ts|
  {
    if ts == [] then 0 else Shift(ts[0]) + TotalShift(ts[1..])
  }

  /**
   * The line after a batch, the transformations applied and those dropped
   * (each in queue order), and the summed cursor shift of those applied.
   */
  datatype BatchResult = BatchResult(line: LineState, applied: seq<Transformation>, dropped: seq<Transformation>, shift: int)

  /**
   * Apply a batch: each transformation is tried on the text its predecessors
   * left; one that does not fit is dropped and the rest still apply.
   */
  function ApplyBatch(line: LineState, lineNumber: nat, ts: seq<Transformation>): (r: BatchResult)
    decreases |ts|
    // every queued transformation is either applied or dropped
    ensures |r.applied| + |r.dropped| == |ts|
  {
    if ts == [] then BatchResult(line, [], [], 0)
    else
      match Apply(line, lineNumber, ts[0])
      case None =>
        var rest := ApplyBatch(line, lineNumber, ts[1..]);
        rest.(dropped := [ts[0]] + rest.dropped)
      case Some(next) =>
        var rest := ApplyBatch(next, lineNumber, ts[1..]);
        rest.(applied := [ts[0]] + rest.applied, shift := Shift(ts[0]) + rest.shift)
  }

  /** Each queued transformation is either applied or dropped, and never both. */
  lemma {:induction false} ApplyBatchPartitions(line: LineState, lineNumber: nat, ts: seq<Transformation>)
    decreases |ts|
    ensures var r := ApplyBatch(line, lineNumber, ts);
      multiset(r.applied) + multiset(r.dropped) == multiset(ts)
  {
    if ts != [] {
      assert ts == [ts[0]] + ts[1..];
      match Apply(line, lineNumber, ts[0])
      case None => ApplyBatchPartitions(line, lineNumber, ts[1..]);
      case Some(next) => ApplyBatchPartitions(next, lineNumber, ts[1..]);
    }
  }

  /** `ts` is `a` and `d` merged, each kept in its own order. */
  predicate Interleaves(ts: seq<Transformation>, a: seq<Transformation>, d: seq<Transformation>)
    decreases |ts|
  {
    if ts == [] then a == [] && d == []
    else
      || (a != [] && a[0] == ts[0] && Interleaves(ts[1..], a[1..], d))
      || (d != [] && d[0] == ts[0] && Interleaves(ts[1..], a, d[1..]))
  }

  /** The queue is the applied and the dropped transformations merged, each list in queue order. */
  lemma {:induction false} ApplyBatchKeepsQueueOrder(line: LineState, lineNumber: nat, ts: seq<Transformation>)
    decreases |ts|
    ensures var r := ApplyBatch(line, lineNumber, ts);
      Interleaves(ts, r.applied, r.dropped)
  {
    if ts != [] {
      match Apply(line, lineNumber, ts[0])
      case None =>
        ApplyBatchKeepsQueueOrder(line, lineNumber, ts[1..]);
        var rest := ApplyBatch(line, lineNumber, ts[1..]);
        assert ([ts[0]] + rest.dropped)[1..] == rest.dropped;
      case Some(next) =>
        ApplyBatchKeepsQueueOrder(next, lineNumber, ts[1..]);
        var rest := ApplyBatch(next, lineNumber, ts[1..]);
        assert ([ts[0]] + rest.applied)[1..] == rest.applied;
    }
  }

  /** The applied transformations, replayed strictly in order, give the resulting line and cursor shift. */
  lemma {:induction false} ApplyBatchReplaysApplied(line: LineState, lineNumber: nat, ts: seq<Transformation>)
    decreases |ts|
    ensures var r := ApplyBatch(line, lineNumber, ts);
      Replay(line, lineNumber, r.applied) == Some(r.line) && r.shift == TotalShift(r.applied)
  {
    if ts != [] {
      match Apply(line, lineNumber, ts[0])
      case None => ApplyBatchReplaysApplied(line, lineNumber, ts[1..]);
      case Some(next) =>
        ApplyBatchReplaysApplied(next, lineNumber, ts[1..]);
        var rest := ApplyBatch(next, lineNumber, ts[1..]);
        assert ([ts[0]] + rest.applied)[0] == ts[0];
        assert ([ts[0]] + rest.applied)[1..] == rest.applied;
    }
  }

  /** Nothing is dropped exactly when the whole batch replays, and then the batch is the replay. */
  lemma {:induction false} ApplyBatchWhenAllFit(line: LineState, lineNumber: nat, ts: seq<Transformation>)
    decreases |ts|
    ensures var r := ApplyBatch(line, lineNumber, ts);
      && (r.dropped == [] <==> Replay(line, lineNumber, ts).Some?)
      && (Replay(line, lineNumber, ts).Some? ==>
            r == BatchResult(Replay(line, lineNumber, ts).value, ts, [], TotalShift(ts)))
  {
    if ts != [] {
      assert ts == [ts[0]] + ts[1..];
      match Apply(line, lineNumber, ts[0])
      case None => ApplyBatchWhenAllFit(line, lineNumber, ts[1..]);
      case Some(next) => ApplyBatchWhenAllFit(next, lineNumber, ts[1..]);
    }
  }

  /** A batch none of whose transformations fits changes nothing and reports them all. */
  lemma {:induction false} ApplyBatchWhenNoneFit(line: LineState, lineNumber: nat, ts: seq<Transformation>)
    requires forall t :: t in ts ==> !Fits(line.text, lineNumber, t)
    decreases |ts|
    ensures ApplyBatch(line, lineNumber, ts) == BatchResult(line, [], ts, 0)
  {
    if ts != [] {
      assert ts == [ts[0]] + ts[1..];
      assert ts[0] in ts;
      ApplyBatchWhenNoneFit(line, lineNumber, ts[1..]);
    }
  }

  /**
   * The general rule, one queued transformation at a time: a transformation
   * that fits the text its predecessors left is applied and adds its diff;
   * one that does not fit is dropped and changes nothing.
   */
  lemma {:induction false} ApplyBatchExtend(line: LineState, lineNumber: nat, ts: seq<Transformation>, t: Transformation)
    decreases |ts|
    ensures var r, r' := ApplyBatch(line, lineNumber, ts), ApplyBatch(line, lineNumber, ts + [t]);
      if Fits(r.line.text, lineNumber, t) then
        r' == BatchResult(Apply(r.line, lineNumber, t).value, r.applied + [t], r.dropped, r.shift + Shift(t))
      else
        r' == r.(dropped := r.dropped + [t])
  {
    if ts == [] {
      assert [] + [t] == [t] && [t][1..] == [];
    } else {
      assert (ts + [t])[0] == ts[0] && (ts + [t])[1..] == ts[1..] + [t];
      match Apply(line, lineNumber, ts[0])
      case None => ApplyBatchExtend(line, lineNumber, ts[1..], t);
      case Some(next) => ApplyBatchExtend(next, lineNumber, ts[1..], t);
    }
  }

  /** A batch of one transformation that fits and one that, after it, does not: the first applies, the second is reported. */
  lemma BatchDropsOnlyWhatDoesNotFit(line: LineState, lineNumber: nat, good: Transformation, bad: Transformation)
    requires Fits(line.text, lineNumber, good)
    requires !Fits(Apply(line, lineNumber, good).value.text, lineNumber, bad)
    ensures var r := ApplyBatch(line, lineNumber, [good, bad]);
      && r.line == Apply(line, lineNumber, good).value
      && r.applied == [good] && r.dropped == [bad] && r.shift == Shift(good)
  {
    var next := Apply(line, lineNumber, good).value;
    assert [good, bad][1..] == [bad];
    assert [bad][1..] == [];
    assert ApplyBatch(next, lineNumber, [bad]) == BatchResult(next, [], [bad], 0);
  }

  /** A transformation that does not fit, then one that does: the first is reported, the second still applies. */
  lemma BatchAppliesPastWhatDoesNotFit(line: LineState, lineNumber: nat, bad: Transformation, good: Transformation)
    requires !Fits(line.text, lineNumber, bad)
    requires Fits(line.text, lineNumber, good)
    ensures var r := ApplyBatch(line, lineNumber, [bad, good]);
      && r.line == Apply(line, lineNumber, good).value
      && r.applied == [good] && r.dropped == [bad] && r.shift == Shift(good)
  {
    var next := Apply(line, lineNumber, good).value;
    assert [bad, good][1..] == [good];
    assert [good][1..] == [];
    assert ApplyBatch(line, lineNumber, [good]) == BatchResult(next, [good], [], Shift(good) + 0);
  }

  // ---------------------------------------------------------------------------
  // Keys pressed in an editor holding one line

  /** A one-line buffer (line `lineNumber` of the document) and the session editing it. */
  datatype Editor = Editor(text: string, lineNumber: nat, session: Session)

  /** The keys the Replace-mode commands are bound to; `Char` is any key matching `<character>`. */
  datatype Key = Esc | InsertKey | Backspace | Char(key: string)

  /** After a command returns: apply its batch, then resolve the cursor and empty the batch. */
  function Commit(e: Editor): (r: Editor)
    ensures r.session.transformations == []
    ensures r.session.mode == e.session.mode && r.session.replaceState == e.session.replaceState
    ensures e.session.transformations == [] ==> r == e
  {
    var s := e.session;
    if s.transformations == [] then e
    else
      var b := ApplyBatch(LineState(e.text, s.cursorStopPosition.character), e.lineNumber, s.transformations);
      var column := if b.line.cursor + b.shift < 0 then 0 else b.line.cursor + b.shift;
      var cursor := Position(e.lineNumber, column);
      Editor(b.line.text, e.lineNumber,
        s.(cursorStopPosition := cursor, cursorStartPosition := cursor, transformations := []))
  }

  /**
   * One key: in Replace mode the matching command runs at the cursor and its
   * batch is committed; in any other mode none of these commands is enabled
   * and the key is not handled here. <Insert> does not read the replace
   * state; the other three commands need one, and without it the key is left
   * unhandled. Backspace runs as intended (BackspaceIntended), which away
   * from the replace origin is the code as written (IntendedAgreesAwayFromOrigin).
   */
  function Press(e: Editor, k: Key): (r: Editor)
    ensures e.session.mode != Replace ==> r == e
    ensures r.lineNumber == e.lineNumber
  {
    var s := e.session;
    if s.mode != Replace then e
    else if k.InsertKey? then Commit(e.(session := ReplaceModeToInsertMode(s)))
    else if s.replaceState.None? then e
    else
      var position := s.cursorStopPosition;
      var s' := match k
        case Esc => ExitReplaceMode(s, position)
        case InsertKey => ReplaceModeToInsertMode(s)
        case Backspace => BackspaceIntended(s, position)
        case Char(key) => ReplaceInReplaceMode(s, position, key, |e.text|);
      Commit(e.(session := s'))
  }

  /** Pressing a key in Replace mode runs its command at the cursor and commits the batch. */
  lemma PressInReplaceMode(e: Editor, k: Key)
    requires e.session.mode == Replace && e.session.replaceState.Some?
    ensures var s, position := e.session, e.session.cursorStopPosition;
      Press(e, k) == Commit(e.(session := match k
        case Esc => ExitReplaceMode(s, position)
        case InsertKey => ReplaceModeToInsertMode(s)
        case Backspace => BackspaceIntended(s, position)
        case Char(key) => ReplaceInReplaceMode(s, position, key, |e.text|)))
  {
  }

  function Run(e: Editor, keys: seq<Key>): Editor
    decreases |keys|
  {
    if keys == [] then e else Run(Press(e, keys[0]), keys[1..])
  }

  lemma {:induction false} RunAppend(e: Editor, a: seq<Key>, b: seq<Key>)
    ensures Run(e, a + b) == Run(Run(e, a), b)
    decreases |a|
  {
    if a != [] {
      assert (a + b)[1..] == a[1..] + b;
      RunAppend(Press(e, a[0]), a[1..], b);
    } else {
      assert a + b == b;
    }
  }

  // ---------------------------------------------------------------------------
  // Replacing text and backspacing over it

  /** A key that overwrites one character: a single character other than a newline. */
  predicate Printable(key: string)
  {
    |key| == 1 && key != "\n"
  }

  predicate AllPrintable(keys: seq<string>)
  {
    forall i :: 0 <= i < |keys| ==> Printable(keys[i])
  }

  function Min(a: nat, b: nat): nat
  {
    if a <= b then a else b
  }

  /** The keys typing `typed`, one `<character>` key each. */
  function TypeKeys(typed: seq<string>): (keys: seq<Key>)
    ensures |keys| == |typed|
  {
    if typed == [] then [] else [Char(typed[0])] + TypeKeys(typed[1..])
  }

  function Backspaces(n: nat): (keys: seq<Key>)
    ensures |keys| == n
  {
    if n == 0 then [] else [Backspace] + Backspaces(n - 1)
  }

  /** The editor just after `R` (or `{times}R`) at column `start` of `original`. */
  function StartReplace(original: string, lineNumber: nat, start: nat, times: int): Editor
  {
    var origin := Position(lineNumber, start);
    Editor(original, lineNumber,
      Session(Replace, origin, origin, Some(ReplaceRecord(origin, original, [], times)), []))
  }

  /** The text after typing `joined` from `start`: it overwrites the original characters, continuing past the end. */
  function TypedText(original: string, start: nat, joined: string): string
    requires start <= |original|
  {
    original[..start] + joined + original[Min(start + |joined|, |original|)..]
  }

  /** The editor after typing `typed` from `start`; the cursor sits after the typed characters. */
  function Typed(original: string, lineNumber: nat, start: nat, times: int, typed: seq<string>): Editor
    requires start <= |original|
  {
    var cursor := Position(lineNumber, start + |typed|);
    Editor(TypedText(original, start, Join(typed)), lineNumber,
      Session(Replace, cursor, cursor,
        Some(ReplaceRecord(Position(lineNumber, start), original, typed, times)), []))
  }

  lemma TypedNothing(original: string, lineNumber: nat, start: nat, times: int)
    requires start <= |original|
    ensures Typed(original, lineNumber, start, times, []) == StartReplace(original, lineNumber, start, times)
  {
    assert original[..start] + Join([]) + original[start..] == original;
  }

  /** Committing a batch of one transformation that fits. */
  lemma CommitOne(e: Editor, t: Transformation)
    requires e.session.transformations == [t]
    requires Fits(e.text, e.lineNumber, t)
    ensures var line := Apply(LineState(e.text, e.session.cursorStopPosition.character), e.lineNumber, t).value;
      var column := if line.cursor + Shift(t) < 0 then 0 else line.cursor + Shift(t);
      var cursor := Position(e.lineNumber, column);
      Commit(e) == Editor(line.text, e.lineNumber,
        e.session.(cursorStopPosition := cursor, cursorStartPosition := cursor, transformations := []))
  {
    var line := LineState(e.text, e.session.cursorStopPosition.character);
    var next := Apply(line, e.lineNumber, t).value;
    assert [t][1..] == [];
    assert ApplyBatch(line, e.lineNumber, [t]) == BatchResult(next, [t], [], Shift(t) + 0);
  }

  /** Overwriting a middle part of a sequence by `x`. */
  lemma ReplaceMiddle<T>(head: seq<T>, mid: seq<T>, tail: seq<T>, x: seq<T>)
    ensures var s := head + mid + tail;
      s[..|head|] + x + s[|head| + |mid|..] == head + x + tail
  {
    var s := head + mid + tail;
    assert s[..|head|] == head;
    assert s[|head| + |mid|..] == tail;
  }

  // ---------------------------------------------------------------------------
  // One key in any editor in Replace mode

  /** In Replace mode with nothing queued and the cursor on the editor's line. */
  predicate Ready(e: Editor)
  {
    && e.session.mode == Replace && e.session.replaceState.Some? && e.session.transformations == []
    && e.session.cursorStopPosition.line == e.lineNumber
    && e.session.cursorStopPosition.character <= |e.text|
  }

  /** `e` with a new text, the cursor collapsed at `column` and a new stack of typed keys. */
  function Stepped(e: Editor, text: string, column: nat, newChars: seq<string>): Editor
    requires e.session.replaceState.Some?
  {
    var cursor := Position(e.lineNumber, column);
    Editor(text, e.lineNumber,
      e.session.(cursorStopPosition := cursor, cursorStartPosition := cursor,
                 replaceState := Some(e.session.replaceState.value.(newChars := newChars))))
  }

  /** A printable key on a character overwrites it and steps right, pushing the key. */
  lemma PressOverwrites(e: Editor, key: string)
    requires Ready(e) && Printable(key) && e.session.cursorStopPosition.character < |e.text|
    ensures var c, rs := e.session.cursorStopPosition.character, e.session.replaceState.value;
      Press(e, Char(key)) == Stepped(e, e.text[..c] + key + e.text[c + 1..], c + 1, rs.newChars + [key])
  {
    var position := e.session.cursorStopPosition;
    var c := position.character;
    PressInReplaceMode(e, Char(key));
    var s' := ReplaceInReplaceMode(e.session, position, key, |e.text|);
    var t := ReplaceText(key, Range(position, Position(e.lineNumber, c + 1)), Some(PositionDiff(0, 1)));
    assert s'.transformations == [t];
    assert Apply(LineState(e.text, c), e.lineNumber, t) == Some(Splice(LineState(e.text, c), c, c + 1, key));
    CommitOne(e.(session := s'), t);
  }

  /** A printable key at the end of the line is inserted there and the cursor moves past it. */
  lemma PressAppends(e: Editor, key: string)
    requires Ready(e) && Printable(key) && e.session.cursorStopPosition.character == |e.text|
    ensures var c, rs := e.session.cursorStopPosition.character, e.session.replaceState.value;
      Press(e, Char(key)) == Stepped(e, e.text + key, c + 1, rs.newChars + [key])
  {
    var position := e.session.cursorStopPosition;
    var c := position.character;
    PressInReplaceMode(e, Char(key));
    var s' := ReplaceInReplaceMode(e.session, position, key, |e.text|);
    var t := InsertText(key, position, None);
    assert s'.transformations == [t] by {
      assert position.IsLineEnd(|e.text|);
    }
    var line := Splice(LineState(e.text, c), c, c, key);
    assert Apply(LineState(e.text, c), e.lineNumber, t) == Some(line);
    assert line.text == e.text + key by {
      assert e.text[..c] == e.text && e.text[c..] == [];
    }
    CommitOne(e.(session := s'), t);
  }

  /** Backspace after the replace origin and past the original text deletes the character left of the cursor. */
  lemma PressDeletes(e: Editor)
    requires Ready(e) && 0 < e.session.cursorStopPosition.character
    requires var position, rs := e.session.cursorStopPosition, e.session.replaceState.value;
      !position.IsBeforeOrEqual(rs.replaceCursorStartPosition) && PastOriginalText(position, rs)
    ensures var c, rs := e.session.cursorStopPosition.character, e.session.replaceState.value;
      Press(e, Backspace) == Stepped(e, e.text[..c - 1] + e.text[c..], c - 1, Pop(rs.newChars))
  {
    var position := e.session.cursorStopPosition;
    var c := position.character;
    PressInReplaceMode(e, Backspace);
    var s' := BackspaceIntended(e.session, position);
    assert s'.transformations == [DeleteText(position)];
    var line := Splice(LineState(e.text, c), c - 1, c, "");
    assert Apply(LineState(e.text, c), e.lineNumber, DeleteText(position)) == Some(line);
    assert line.text == e.text[..c - 1] + e.text[c..];
    CommitOne(e.(session := s'), DeleteText(position));
  }

  /** Backspace after the replace origin and within the original text puts the original character back. */
  lemma PressRestores(e: Editor)
    requires Ready(e)
    requires var position, rs := e.session.cursorStopPosition, e.session.replaceState.value;
      !position.IsBeforeOrEqual(rs.replaceCursorStartPosition) && !PastOriginalText(position, rs)
    ensures var c, rs := e.session.cursorStopPosition.character, e.session.replaceState.value;
      && 1 <= c <= |rs.originalChars|
      && Press(e, Backspace) == Stepped(e, e.text[..c - 1] + [rs.originalChars[c - 1]] + e.text[c..], c - 1, Pop(rs.newChars))
  {
    var position := e.session.cursorStopPosition;
    var c := position.character;
    var rs := e.session.replaceState.value;
    PressInReplaceMode(e, Backspace);
    var s' := BackspaceIntended(e.session, position);
    var ins := [rs.originalChars[c - 1]];
    var t := ReplaceText(ins, Range(Position(e.lineNumber, c - 1), position), Some(PositionDiff(0, -1)));
    assert s'.transformations == [t];
    var line := Splice(LineState(e.text, c), c - 1, c, ins);
    assert Apply(LineState(e.text, c), e.lineNumber, t) == Some(line);
    assert line.cursor == c;
    CommitOne(e.(session := s'), t);
  }

  /** <Esc> with a count above one inserts the remaining copies of the typed text at the cursor. */
  lemma PressExitRepeats(e: Editor)
    requires Ready(e) && e.session.replaceState.value.timesToRepeat > 1
    ensures var c, rs := e.session.cursorStopPosition.character, e.session.replaceState.value;
      var copies := Repeat(Join(rs.newChars), rs.timesToRepeat - 1);
      var column := if c + |copies| == 0 then 0 else c + |copies| - 1;
      var cursor := Position(e.lineNumber, column);
      Press(e, Esc) == Editor(e.text[..c] + copies + e.text[c..], e.lineNumber,
        e.session.(mode := Normal, cursorStopPosition := cursor, cursorStartPosition := cursor))
  {
    var position := e.session.cursorStopPosition;
    var c := position.character;
    var rs := e.session.replaceState.value;
    PressInReplaceMode(e, Esc);
    var s' := ExitReplaceMode(e.session, position);
    var copies := Repeat(Join(rs.newChars), rs.timesToRepeat - 1);
    var t := InsertText(copies, position, Some(PositionDiff(0, -1)));
    assert s'.transformations == [t];
    var line := Splice(LineState(e.text, c), c, c, copies);
    assert Apply(LineState(e.text, c), e.lineNumber, t) == Some(line);
    assert line.cursor == c + |copies|;
    CommitOne(e.(session := s'), t);
  }

  /** Away from the replace origin, <BS> in the editor runs the command exactly as written. */
  lemma PressBackspaceAsWritten(e: Editor)
    requires e.session.mode == Replace && e.session.replaceState.Some?
    requires !e.session.cursorStopPosition.IsBeforeOrEqual(e.session.replaceState.value.replaceCursorStartPosition)
    ensures Press(e, Backspace)
         == Commit(e.(session := BackspaceInReplaceMode(e.session, e.session.cursorStopPosition)))
  {
    IntendedAgreesAwayFromOrigin(e.session, e.session.cursorStopPosition);
  }

  // ---------------------------------------------------------------------------
  // Typing and backspacing from the replace origin

  /** Overwriting the character after `joined` by `key` extends `joined` by `key`. */
  lemma OverwriteAfter(original: string, start: nat, joined: string, key: string)
    requires start + |joined| < |original|
    ensures var c := start + |joined|;
      var text := original[..start] + joined + original[c..];
      text[..c] + key + text[c + 1..] == original[..start] + (joined + key) + original[c + 1..]
  {
    var c := start + |joined|;
    var head, tail := original[..start] + joined, original[c + 1..];
    assert original[c..] == [original[c]] + tail;
    ReplaceMiddle(head, [original[c]], tail, key);
  }

  /** Putting the original character back in place of the key after `joined`. */
  lemma RestoreAfter(original: string, start: nat, joined: string, key: string)
    requires start + |joined| < |original| && |key| == 1
    ensures var c := start + |joined| + 1;
      var text := original[..start] + (joined + key) + original[c..];
      text[..c - 1] + [original[c - 1]] + text[c..] == original[..start] + joined + original[c - 1..]
  {
    var c := start + |joined| + 1;
    var head, tail := original[..start] + joined, original[c..];
    assert original[..start] + (joined + key) + tail == head + key + tail;
    ReplaceMiddle(head, key, tail, [original[c - 1]]);
    assert original[c - 1..] == [original[c - 1]] + tail;
  }

  /** Removing the key after `joined`, past the original text. */
  lemma DeleteAfter(original: string, start: nat, joined: string, key: string)
    requires start <= |original| && |key| == 1
    ensures var c := start + |joined| + 1;
      var text := original[..start] + (joined + key) + [];
      text[..c - 1] + text[c..] == original[..start] + joined + []
  {
    var head := original[..start] + joined;
    assert original[..start] + (joined + key) + [] == head + key + [];
    ReplaceMiddle(head, key, [], []);
  }

  /** The text after one more key within the original text. */
  lemma TypedTextOverwrite(original: string, start: nat, joined: string, key: string)
    requires start + |joined| < |original| && |key| == 1
    ensures var text, c := TypedText(original, start, joined), start + |joined|;
      && |text| == |original|
      && text[..c] + key + text[c + 1..] == TypedText(original, start, joined + key)
  {
    var c := start + |joined|;
    assert TypedText(original, start, joined) == original[..start] + joined + original[c..];
    assert TypedText(original, start, joined + key) == original[..start] + (joined + key) + original[c + 1..];
    OverwriteAfter(original, start, joined, key);
  }

  /** The text after one more key at or past the end of the original text. */
  lemma TypedTextAppend(original: string, start: nat, joined: string, key: string)
    requires start <= |original| <= start + |joined| && |key| == 1
    ensures var text := TypedText(original, start, joined);
      && |text| == start + |joined|
      && text + key == TypedText(original, start, joined + key)
  {
    var head := original[..start] + joined;
    assert TypedText(original, start, joined) == head + [];
    assert TypedText(original, start, joined + key) == head + key + [];
  }

  /** The text after one key less, past the end of the original text. */
  lemma TypedTextDelete(original: string, start: nat, joined: string, key: string)
    requires start <= |original| < start + |joined| + 1 && |key| == 1
    ensures var text, c := TypedText(original, start, joined + key), start + |joined| + 1;
      && |text| == c
      && text[..c - 1] + text[c..] == TypedText(original, start, joined)
  {
    assert TypedText(original, start, joined + key) == original[..start] + (joined + key) + [];
    assert TypedText(original, start, joined) == original[..start] + joined + [];
    DeleteAfter(original, start, joined, key);
  }

  /** The text after one key less, within the original text. */
  lemma TypedTextRestore(original: string, start: nat, joined: string, key: string)
    requires start + |joined| + 1 <= |original| && |key| == 1
    ensures var text, c := TypedText(original, start, joined + key), start + |joined| + 1;
      && |text| == |original|
      && text[..c - 1] + [original[c - 1]] + text[c..] == TypedText(original, start, joined)
  {
    var c := start + |joined| + 1;
    assert TypedText(original, start, joined + key) == original[..start] + (joined + key) + original[c..];
    assert TypedText(original, start, joined) == original[..start] + joined + original[c - 1..];
    RestoreAfter(original, start, joined, key);
  }

  /** One printable key overwrites the character under the cursor, or extends the line at its end. */
  lemma TypeOne(original: string, lineNumber: nat, start: nat, times: int, typed: seq<string>, key: string)
    requires start <= |original| && AllPrintable(typed) && Printable(key)
    ensures Press(Typed(original, lineNumber, start, times, typed), Char(key))
         == Typed(original, lineNumber, start, times, typed + [key])
  {
    JoinOfCharacters(typed);
    if start + |typed| < |original| {
      TypeOverwrites(original, lineNumber, start, times, typed, key);
    } else {
      TypeAppends(original, lineNumber, start, times, typed, key);
    }
  }

  /** Stepping a Typed editor to the text and cursor of `newTyped` gives the Typed editor of `newTyped`. */
  lemma SteppedTyped(original: string, lineNumber: nat, start: nat, times: int, typed: seq<string>,
                     newTyped: seq<string>, text: string)
    requires start <= |original| && text == TypedText(original, start, Join(newTyped))
    ensures Stepped(Typed(original, lineNumber, start, times, typed), text, start + |newTyped|, newTyped)
         == Typed(original, lineNumber, start, times, newTyped)
  {
  }

  /** Over the original text, a printable key's preconditions hold and its result is the longer Typed editor. */
  lemma TypedOverwritable(original: string, lineNumber: nat, start: nat, times: int, typed: seq<string>, key: string)
    requires start + |typed| < |original| && |Join(typed)| == |typed| && Printable(key)
    ensures var e := Typed(original, lineNumber, start, times, typed);
      var c, rs := e.session.cursorStopPosition.character, e.session.replaceState.value;
      && Ready(e) && c < |e.text|
      && Stepped(e, e.text[..c] + key + e.text[c + 1..], c + 1, rs.newChars + [key])
         == Typed(original, lineNumber, start, times, typed + [key])
  {
    var e := Typed(original, lineNumber, start, times, typed);
    var c := start + |typed|;
    assert e.session.cursorStopPosition == Position(lineNumber, c) && e.session.replaceState.value.newChars == typed;
    JoinPush(typed, key);
    TypedTextOverwrite(original, start, Join(typed), key);
    SteppedTyped(original, lineNumber, start, times, typed, typed + [key], e.text[..c] + key + e.text[c + 1..]);
  }

  lemma TypeOverwrites(original: string, lineNumber: nat, start: nat, times: int, typed: seq<string>, key: string)
    requires start + |typed| < |original| && |Join(typed)| == |typed| && Printable(key)
    ensures Press(Typed(original, lineNumber, start, times, typed), Char(key))
         == Typed(original, lineNumber, start, times, typed + [key])
  {
    TypedOverwritable(original, lineNumber, start, times, typed, key);
    PressOverwrites(Typed(original, lineNumber, start, times, typed), key);
  }

  /** At or past the end of the line, a printable key's preconditions hold and its result is the longer Typed editor. */
  lemma TypedAppendable(original: string, lineNumber: nat, start: nat, times: int, typed: seq<string>, key: string)
    requires start <= |original| <= start + |typed| && |Join(typed)| == |typed| && Printable(key)
    ensures var e := Typed(original, lineNumber, start, times, typed);
      var c, rs := e.session.cursorStopPosition.character, e.session.replaceState.value;
      && Ready(e) && c == |e.text|
      && Stepped(e, e.text + key, c + 1, rs.newChars + [key]) == Typed(original, lineNumber, start, times, typed + [key])
  {
    var e := Typed(original, lineNumber, start, times, typed);
    var c := start + |typed|;
    assert e.session.cursorStopPosition == Position(lineNumber, c) && e.session.replaceState.value.newChars == typed;
    JoinPush(typed, key);
    TypedTextAppend(original, start, Join(typed), key);
    SteppedTyped(original, lineNumber, start, times, typed, typed + [key], e.text + key);
  }

  lemma TypeAppends(original: string, lineNumber: nat, start: nat, times: int, typed: seq<string>, key: string)
    requires start <= |original| <= start + |typed| && |Join(typed)| == |typed| && Printable(key)
    ensures Press(Typed(original, lineNumber, start, times, typed), Char(key))
         == Typed(original, lineNumber, start, times, typed + [key])
  {
    TypedAppendable(original, lineNumber, start, times, typed, key);
    PressAppends(Typed(original, lineNumber, start, times, typed), key);
  }

  lemma PopPush(typed: seq<string>, key: string)
    ensures Pop(typed + [key]) == typed
  {
  }

  /** Backspace right after a typed key restores what that key overwrote, or removes it past the original end. */
  lemma BackspaceOne(original: string, lineNumber: nat, start: nat, times: int, typed: seq<string>, key: string)
    requires start <= |original| && AllPrintable(typed) && Printable(key)
    ensures Press(Typed(original, lineNumber, start, times, typed + [key]), Backspace)
         == Typed(original, lineNumber, start, times, typed)
    // the cursor is past the origin, so this is also the command as written
    ensures var e := Typed(original, lineNumber, start, times, typed + [key]);
      Press(e, Backspace) == Commit(e.(session := BackspaceInReplaceMode(e.session, e.session.cursorStopPosition)))
  {
    PressBackspaceAsWritten(Typed(original, lineNumber, start, times, typed + [key]));
    JoinOfCharacters(typed);
    PopPush(typed, key);
    if start + |typed| + 1 > |original| {
      BackspaceDeletes(original, lineNumber, start, times, typed, key);
    } else {
      BackspaceRestores(original, lineNumber, start, times, typed, key);
    }
  }

  /** After one more typed key past the original text, backspace's preconditions hold and its result is the shorter Typed editor. */
  lemma TypedDeletable(original: string, lineNumber: nat, start: nat, times: int, typed: seq<string>, key: string)
    requires start <= |original| < start + |typed| + 1 && |Join(typed)| == |typed| && |key| == 1
    requires Pop(typed + [key]) == typed
    ensures var e := Typed(original, lineNumber, start, times, typed + [key]);
      var position, rs := e.session.cursorStopPosition, e.session.replaceState.value;
      var c := position.character;
      && Ready(e) && 0 < c
      && !position.IsBeforeOrEqual(rs.replaceCursorStartPosition) && PastOriginalText(position, rs)
      && Stepped(e, e.text[..c - 1] + e.text[c..], c - 1, Pop(rs.newChars)) == Typed(original, lineNumber, start, times, typed)
  {
    var e := Typed(original, lineNumber, start, times, typed + [key]);
    var c := start + |typed| + 1;
    var rs := ReplaceRecord(Position(lineNumber, start), original, typed + [key], times);
    assert |typed + [key]| == |typed| + 1;
    assert e.session.cursorStopPosition == Position(lineNumber, c) && e.session.replaceState == Some(rs);
    JoinPush(typed, key);
    TypedTextDelete(original, start, Join(typed), key);
    SteppedTyped(original, lineNumber, start, times, typed + [key], typed, e.text[..c - 1] + e.text[c..]);
  }

  lemma BackspaceDeletes(original: string, lineNumber: nat, start: nat, times: int, typed: seq<string>, key: string)
    requires start <= |original| < start + |typed| + 1 && |Join(typed)| == |typed| && |key| == 1
    requires Pop(typed + [key]) == typed
    ensures Press(Typed(original, lineNumber, start, times, typed + [key]), Backspace)
         == Typed(original, lineNumber, start, times, typed)
  {
    TypedDeletable(original, lineNumber, start, times, typed, key);
    PressDeletes(Typed(original, lineNumber, start, times, typed + [key]));
  }

  /** After one more typed key over the original text, backspace's preconditions hold. */
  lemma TypedRestorable(original: string, lineNumber: nat, start: nat, times: int, typed: seq<string>, key: string)
    requires start + |typed| + 1 <= |original| && |Join(typed)| == |typed| && |key| == 1
    ensures var e := Typed(original, lineNumber, start, times, typed + [key]);
      var position, rs := e.session.cursorStopPosition, e.session.replaceState.value;
      && Ready(e) && !position.IsBeforeOrEqual(rs.replaceCursorStartPosition) && !PastOriginalText(position, rs)
      && 1 <= position.character <= |rs.originalChars|
  {
    var e := Typed(original, lineNumber, start, times, typed + [key]);
    var c := start + |typed| + 1;
    assert |typed + [key]| == |typed| + 1 && 1 <= c <= |original|;
    assert e.session.cursorStopPosition == Position(lineNumber, c);
    JoinPush(typed, key);
    assert |e.text| == |original|;
  }

  /** Putting the original character back after one more typed key gives the shorter Typed editor. */
  lemma TypedRestoreStep(original: string, lineNumber: nat, start: nat, times: int, typed: seq<string>, key: string)
    requires start + |typed| + 1 <= |original| && |Join(typed)| == |typed| && |key| == 1
    requires Pop(typed + [key]) == typed
    ensures var e := Typed(original, lineNumber, start, times, typed + [key]);
      var c := start + |typed| + 1;
      Stepped(e, e.text[..c - 1] + [original[c - 1]] + e.text[c..], c - 1, Pop(typed + [key]))
        == Typed(original, lineNumber, start, times, typed)
  {
    var e := Typed(original, lineNumber, start, times, typed + [key]);
    var c := start + |typed| + 1;
    JoinPush(typed, key);
    assert e.text == TypedText(original, start, Join(typed) + key);
    TypedTextRestore(original, start, Join(typed), key);
    var text := TypedText(original, start, Join(typed));
    assert e.text[..c - 1] + [original[c - 1]] + e.text[c..] == text;
    SteppedTyped(original, lineNumber, start, times, typed + [key], typed, text);
  }

  lemma BackspaceRestores(original: string, lineNumber: nat, start: nat, times: int, typed: seq<string>, key: string)
    requires start + |typed| + 1 <= |original| && |Join(typed)| == |typed| && |key| == 1
    requires Pop(typed + [key]) == typed
    ensures Press(Typed(original, lineNumber, start, times, typed + [key]), Backspace)
         == Typed(original, lineNumber, start, times, typed)
  {
    TypedRestorable(original, lineNumber, start, times, typed, key);
    TypedRestoreStep(original, lineNumber, start, times, typed, key);
    PressRestores(Typed(original, lineNumber, start, times, typed + [key]));
  }

  /** Moving the first of `more` over to `typed` keeps every key printable and the whole unchanged. */
  lemma PrintableShift(typed: seq<string>, more: seq<string>)
    requires AllPrintable(typed) && AllPrintable(more) && more != []
    ensures AllPrintable(typed + [more[0]]) && AllPrintable(more[1..])
    ensures typed + [more[0]] + more[1..] == typed + more
  {
    assert forall i :: 0 <= i < |typed| ==> (typed + [more[0]])[i] == typed[i];
  }

  lemma {:induction false} TypeMany(original: string, lineNumber: nat, start: nat, times: int, typed: seq<string>, more: seq<string>)
    requires start <= |original| && AllPrintable(typed) && AllPrintable(more)
    ensures Run(Typed(original, lineNumber, start, times, typed), TypeKeys(more))
         == Typed(original, lineNumber, start, times, typed + more)
    decreases |more|
  {
    if more == [] {
      assert typed + more == typed;
    } else {
      var e := Typed(original, lineNumber, start, times, typed);
      var keys := TypeKeys(more);
      assert keys[0] == Char(more[0]) && keys[1..] == TypeKeys(more[1..]);
      assert Run(e, keys) == Run(Press(e, keys[0]), keys[1..]);
      TypeOne(original, lineNumber, start, times, typed, more[0]);
      PrintableShift(typed, more);
      TypeMany(original, lineNumber, start, times, typed + [more[0]], more[1..]);
    }
  }

  lemma {:induction false} BackspaceMany(original: string, lineNumber: nat, start: nat, times: int, typed: seq<string>, more: seq<string>)
    requires start <= |original| && AllPrintable(typed) && AllPrintable(more)
    ensures Run(Typed(original, lineNumber, start, times, typed + more), Backspaces(|more|))
         == Typed(original, lineNumber, start, times, typed)
    decreases |more|
  {
    if more == [] {
      assert typed + more == typed;
    } else {
      var last := more[|more| - 1];
      var init := more[..|more| - 1];
      assert typed + more == (typed + init) + [last];
      assert AllPrintable(typed + init) by {
        assert forall i :: 0 <= i < |typed| ==> (typed + init)[i] == typed[i];
        assert forall i :: |typed| <= i < |typed + init| ==> (typed + init)[i] == more[i - |typed|];
      }
      BackspaceOne(original, lineNumber, start, times, typed + init, last);
      BackspaceMany(original, lineNumber, start, times, typed, init);
    }
  }

  /**
   * Typing any printable text in Replace mode and then backspacing once per
   * typed key gives back the original line, cursor and (empty) stack of typed
   * keys, whether or not the text ran past the end of the line.
   */
  lemma ReplaceThenBackspaceRestores(original: string, lineNumber: nat, start: nat, times: int, typed: seq<string>)
    requires start <= |original| && AllPrintable(typed)
    ensures Run(StartReplace(original, lineNumber, start, times), TypeKeys(typed) + Backspaces(|typed|))
         == StartReplace(original, lineNumber, start, times)
  {
    var e := StartReplace(original, lineNumber, start, times);
    TypeFromStart(original, lineNumber, start, times, typed);
    RunAppend(e, TypeKeys(typed), Backspaces(|typed|));
    BackspaceMany(original, lineNumber, start, times, [], typed);
    assert [] + typed == typed;
    TypedNothing(original, lineNumber, start, times);
  }

  /** Typing from the replace origin reaches the Typed editor. */
  lemma TypeFromStart(original: string, lineNumber: nat, start: nat, times: int, typed: seq<string>)
    requires start <= |original| && AllPrintable(typed)
    ensures Run(StartReplace(original, lineNumber, start, times), TypeKeys(typed))
         == Typed(original, lineNumber, start, times, typed)
  {
    TypedNothing(original, lineNumber, start, times);
    TypeMany(original, lineNumber, start, times, [], typed);
    assert [] + typed == typed;
  }

  // ---------------------------------------------------------------------------
  // Leaving Replace mode

  /** The text facts behind ExitOne: the copies go right after the typed text. */
  lemma TypedTextRepeat(original: string, start: nat, joined: string, copies: string)
    requires start <= |original|
    ensures var text, column := TypedText(original, start, joined), start + |joined|;
      && column <= |text|
      && text[..column] + copies + text[column..]
         == original[..start] + (joined + copies) + original[Min(column, |original|)..]
  {
    var column := start + |joined|;
    var head, tail := original[..start] + joined, original[Min(column, |original|)..];
    assert TypedText(original, start, joined) == head + tail;
    InsertBetween(head, tail, copies);
  }

  lemma InsertBetween(head: string, tail: string, ins: string)
    ensures (head + tail)[..|head|] + ins + (head + tail)[|head|..] == head + ins + tail
  {
    assert (head + tail)[..|head|] == head;
    assert (head + tail)[|head|..] == tail;
  }

  /** <Esc> with a count above one after typing `typed`: the copies are inserted and the cursor rests on the last one. */
  lemma ExitOne(original: string, lineNumber: nat, start: nat, times: int, typed: seq<string>)
    requires start <= |original| && AllPrintable(typed) && typed != [] && times > 1
    ensures var e := Press(Typed(original, lineNumber, start, times, typed), Esc);
      var cursor := e.session.cursorStopPosition;
      && cursor.line == lineNumber && cursor.character == start + times * |typed| - 1
      && e == Editor(original[..start] + Repeat(Join(typed), times) + original[Min(start + |typed|, |original|)..],
                lineNumber,
                Session(Normal, cursor, cursor,
                  Some(ReplaceRecord(Position(lineNumber, start), original, typed, times)), []))
  {
    var e := Typed(original, lineNumber, start, times, typed);
    var column := start + |typed|;
    JoinOfCharacters(typed);
    var copies := Repeat(Join(typed), times - 1);
    assert |copies| == (times - 1) * |typed| && |copies| >= 1;
    assert column + (times - 1) * |typed| - 1 == start + times * |typed| - 1;
    TypedTextRepeat(original, start, Join(typed), copies);
    assert Join(typed) + copies == Repeat(Join(typed), times);
    PressExitRepeats(e);
  }

  /**
   * `{times}R`, typed text, <Esc> with times > 1: the typed text stands in
   * the line `times` times in a row, the cursor rests on the last inserted
   * character, and the mode is Normal.
   */
  lemma ExitRepeatsTypedText(original: string, lineNumber: nat, start: nat, times: int, typed: seq<string>)
    requires start <= |original| && AllPrintable(typed) && typed != [] && times > 1
    ensures var e := Run(StartReplace(original, lineNumber, start, times), TypeKeys(typed) + [Esc]);
      var cursor := e.session.cursorStopPosition;
      && e.text == original[..start] + Repeat(Join(typed), times) + original[Min(start + |typed|, |original|)..]
      && cursor.line == lineNumber && cursor.character == start + times * |typed| - 1
      && e.session == Session(Normal, cursor, cursor,
           Some(ReplaceRecord(Position(lineNumber, start), original, typed, times)), [])
  {
    var e := StartReplace(original, lineNumber, start, times);
    TypeFromStart(original, lineNumber, start, times, typed);
    RunAppend(e, TypeKeys(typed), [Esc]);
    var t := Typed(original, lineNumber, start, times, typed);
    assert Run(t, [Esc]) == Press(t, Esc) by {
      assert [Esc][1..] == [];
    }
    ExitOne(original, lineNumber, start, times, typed);
  }

  /** <Esc> without a count: the text stays, the cursor steps left, the mode is Normal. */
  lemma ExitWithoutRepeatStepsLeft(original: string, lineNumber: nat, start: nat, times: int, typed: seq<string>)
    requires start <= |original| && AllPrintable(typed) && times <= 1
    ensures var t := Typed(original, lineNumber, start, times, typed);
      var e := Run(StartReplace(original, lineNumber, start, times), TypeKeys(typed) + [Esc]);
      && e.text == t.text
      && e.session == t.session.(mode := Normal, cursorStopPosition := t.session.cursorStopPosition.GetLeft())
  {
    TypeFromStart(original, lineNumber, start, times, typed);
    RunAppend(StartReplace(original, lineNumber, start, times), TypeKeys(typed), [Esc]);
    var t := Typed(original, lineNumber, start, times, typed);
    assert Run(t, [Esc]) == Press(t, Esc) by {
      assert [Esc][1..] == [];
    }
  }

  /** <Insert> hands over to Insert mode and leaves the text and cursor alone. */
  lemma InsertKeyOnlySwitchesMode(e: Editor)
    requires e.session.mode == Replace && e.session.transformations == []
    ensures Press(e, InsertKey) == e.(session := e.session.(mode := Insert))
  {
  }

  // ---------------------------------------------------------------------------
  // Worked examples

  /** "abc" with the cursor on 'b': typing X gives "aXc" with the cursor on 'c'; backspace gives "abc" back. */
  lemma OverwriteThenBackspaceExample(lineNumber: nat)
    ensures var typed := Run(StartReplace("abc", lineNumber, 1, 1), [Char("X")]);
      && typed.text == "aXc"
      && typed.session.cursorStopPosition == Position(lineNumber, 2)
      && typed.session.replaceState.value.newChars == ["X"]
    ensures var back := Run(StartReplace("abc", lineNumber, 1, 1), [Char("X"), Backspace]);
      && back.text == "abc"
      && back.session.cursorStopPosition == Position(lineNumber, 1)
      && back.session.replaceState.value.newChars == []
  {
    var e := StartReplace("abc", lineNumber, 1, 1);
    TypedNothing("abc", lineNumber, 1, 1);
    TypeOne("abc", lineNumber, 1, 1, [], "X");
    assert [] + ["X"] == ["X"];
    var x := Typed("abc", lineNumber, 1, 1, ["X"]);
    assert Press(e, Char("X")) == x;
    assert x.text == "aXc" by {
      assert Join(["X"]) == "X";
      assert "abc"[..1] + "X" + "abc"[2..] == "aXc";
    }
    assert Run(e, [Char("X")]) == x by {
      assert [Char("X")][1..] == [];
    }
    BackspaceOne("abc", lineNumber, 1, 1, [], "X");
    assert Press(x, Backspace) == e;
    assert Run(e, [Char("X"), Backspace]) == e by {
      assert [Char("X"), Backspace][1..] == [Backspace];
      assert [Backspace][1..] == [];
    }
  }

  lemma TypeKeysXy()
    ensures TypeKeys(["x", "y"]) + [Esc] == [Char("x"), Char("y"), Esc]
  {
    assert ["x", "y"][1..] == ["y"];
    assert TypeKeys(["y"]) == [Char("y")];
  }

  lemma RepeatXy()
    ensures Repeat(Join(["x", "y"]), 3) == "xyxyxy"
  {
    assert Join(["x", "y"]) == "xy";
    assert Repeat("xy", 1) == "xy";
    assert Repeat("xy", 2) == "xyxy";
  }

  /** `3R` on "ab" at column 0, typing "xy", then <Esc>: "xyxyxy" with the cursor on the last 'y'. */
  lemma RepeatReplaceExample(lineNumber: nat)
    ensures var e := Run(StartReplace("ab", lineNumber, 0, 3), [Char("x"), Char("y"), Esc]);
      e.text == "xyxyxy" && e.session.cursorStopPosition == Position(lineNumber, 5) && e.session.mode == Normal
  {
    var typed := ["x", "y"];
    assert AllPrintable(typed);
    TypeKeysXy();
    ExitRepeatsTypedText("ab", lineNumber, 0, 3, typed);
    RepeatXy();
    assert "ab"[..0] + "xyxyxy" + "ab"[Min(2, 2)..] == "xyxyxy";
  }
}

=== FILE: positions.dfy ===
/**
 * Buffer coordinates. The editor's own Position class is abstracted to a pair
 * of naturals; the length of the cursor's line, which the editor would look
 * up, is passed in where an operation needs it.
 */
module Positions {

  datatype Position = Position(line: nat, character: nat) {

    /** Document order: an earlier line, or the same line and not a later column. */
    predicate IsBeforeOrEqual(other: Position): (r: bool)
      ensures this == other ==> r
      ensures r ==> line <= other.line
      ensures line == other.line ==> (r <==> character <= other.character)
    {
      line < other.line || (line == other.line && character <= other.character)
    }

    /** At or past the last column of a line `lineLength` characters long. */
    predicate IsLineEnd(lineLength: nat): (r: bool)
      // not at the line end exactly when a character lies under the cursor
      ensures !r <==> character < lineLength
    {
      character >= lineLength
    }

    /** One column left on the same line, staying put at column 0. */
    function GetLeft(): (r: Position)
      ensures r.line == line && r.IsBeforeOrEqual(this)
      ensures character > 0 ==> r.character + 1 == character
      ensures character == 0 ==> r == this
    {
      Position(line, if character == 0 then 0 else character - 1)
    }

    /** One column right on the same line, not beyond its end. */
    function GetRight(lineLength: nat): (r: Position)
      ensures r.line == line && IsBeforeOrEqual(r)
      ensures !IsLineEnd(lineLength) ==> r.character == character + 1
      ensures IsLineEnd(lineLength) ==> r == this
    {
      Position(line, if character < lineLength then character + 1 else character)
    }
  }

  /** A span from `start` to `stop`. */
  datatype Range = Range(start: Position, stop: Position)

  /** A declarative cursor adjustment, resolved after a batch of edits. */
  datatype PositionDiff = PositionDiff(line: int, character: int)

  /** Document order is a total order. */
  lemma BeforeOrEqualIsTotalOrder(a: Position, b: Position, c: Position)
    ensures a.IsBeforeOrEqual(a)
    ensures a.IsBeforeOrEqual(b) && b.IsBeforeOrEqual(a) ==> a == b
    ensures a.IsBeforeOrEqual(b) && b.IsBeforeOrEqual(c) ==> a.IsBeforeOrEqual(c)
    ensures a.IsBeforeOrEqual(b) || b.IsBeforeOrEqual(a)
  {
  }

  /** Left undoes right away from the line end, and right undoes left away from column 0. */
  lemma LeftRightInverse(p: Position, lineLength: nat)
    ensures !p.IsLineEnd(lineLength) ==> p.GetRight(lineLength).GetLeft() == p
    ensures 0 < p.character <= lineLength ==> p.GetLeft().GetRight(lineLength) == p
  {
  }
}

=== FILE: replace.dfy ===
/**
 * The Replace-mode command set: leaving Replace mode (<Esc>, <C-c>, <C-[>),
 * switching to Insert mode (<Insert>), backspacing (<BS>, <C-h>) and typing
 * a character over the text.
 *
 * Each command's `exec` is a method on the shared session record `VimState`.
 * Every method is proved against a pure step function on a snapshot of that
 * record (`Session`); the step functions state what each command does and
 * the lemmas in this module and in LinePipeline relate them.
 */
module ReplaceCommands {
  import opened Wrappers
  import opened Strings
  import opened Positions
  import opened Modes
  import opened Transformations

  // ---------------------------------------------------------------------------
  // Snapshot values

  /** The value held by a ReplaceState object at one moment. */
  datatype ReplaceRecord = ReplaceRecord(
    replaceCursorStartPosition: Position,
    originalChars: seq<char>,
    newChars: seq<string>,
    timesToRepeat: int)

  /** The part of VimState the Replace-mode commands read and write. */
  datatype Session = Session(
    mode: Mode,
    cursorStopPosition: Position,
    cursorStartPosition: Position,
    replaceState: Option<ReplaceRecord>,
    transformations: seq<Transformation>)

  // ---------------------------------------------------------------------------
  // Mutable state

  /**
   * Replace-mode sub-state: where replacing began, the characters of the line
   * as they were then, the keys typed so far (a stack) and the count of `3R`.
   */
  class ReplaceState {
    var replaceCursorStartPosition: Position
    var originalChars: seq<char>
    var newChars: seq<string>
    var timesToRepeat: int

    constructor (startPosition: Position, originalChars: seq<char>, timesToRepeat: int)
      ensures Record() == ReplaceRecord(startPosition, originalChars, [], timesToRepeat)
    {
      this.replaceCursorStartPosition := startPosition;
      this.originalChars := originalChars;
      this.newChars := [];
      this.timesToRepeat := timesToRepeat;
    }

    function Record(): ReplaceRecord
      reads this
    {
      ReplaceRecord(replaceCursorStartPosition, originalChars, newChars, timesToRepeat)
    }
  }

  /**
   * The per-session editing record. `transformations` is the pending batch of
   * the transformer that the pipeline applies once the command returns.
   */
  class VimState {
    var mode: Mode
    var cursorStopPosition: Position
    var cursorStartPosition: Position
    var replaceState: ReplaceState?
    var transformations: seq<Transformation>

    constructor (mode: Mode, cursor: Position, replaceState: ReplaceState?)
      ensures this.replaceState == replaceState
      ensures Snapshot() == Session(mode, cursor, cursor,
        if replaceState == null then None else Some(replaceState.Record()), [])
    {
      this.mode := mode;
      this.cursorStopPosition := cursor;
      this.cursorStartPosition := cursor;
      this.replaceState := replaceState;
      this.transformations := [];
    }

    function Snapshot(): Session
      reads this, replaceState
    {
      Session(mode, cursorStopPosition, cursorStartPosition,
        if replaceState == null then None else Some(replaceState.Record()),
        transformations)
    }
  }

  // ---------------------------------------------------------------------------
  // Helpers

  /** JavaScript's Array.prototype.pop as a value: drop the last element, if any. */
  function Pop<T>(xs: seq<T>): (r: seq<T>)
    ensures xs != [] ==> r + [xs[|xs| - 1]] == xs
    ensures xs == [] ==> r == []
  {
    if xs == [] then [] else xs[..|xs| - 1]
  }

  /** The cursor has gone beyond the text that existed when replacing began. */
  predicate PastOriginalText(position: Position, rs: ReplaceRecord): (r: bool)
    // after the origin and not past the original text: the column before the cursor indexes originalChars
    ensures !position.IsBeforeOrEqual(rs.replaceCursorStartPosition) && !r ==>
      0 <= position.character - 1 < |rs.originalChars|
  {
    position.line > rs.replaceCursorStartPosition.line
    || position.character > |rs.originalChars|
  }

  // ---------------------------------------------------------------------------
  // Step functions: what each command does to a session

  /** <Esc> in Replace mode. */
  function ExitReplaceMode(s: Session, position: Position): (r: Session)
    requires s.replaceState.Some?
    ensures r.mode == Normal
    ensures r.replaceState == s.replaceState && r.cursorStartPosition == s.cursorStartPosition
    ensures var rs := s.replaceState.value;
      if rs.timesToRepeat > 1 then
        // the typed text is inserted `timesToRepeat - 1` more times, the cursor is left to the pipeline
        && r.cursorStopPosition == s.cursorStopPosition
        && r.transformations == s.transformations
             + [InsertText(Repeat(Join(rs.newChars), rs.timesToRepeat - 1), position, Some(PositionDiff(0, -1)))]
      else
        // no edit: the cursor steps one column left
        && r.transformations == s.transformations
        && r.cursorStopPosition == s.cursorStopPosition.GetLeft()
  {
    var rs := s.replaceState.value;
    if rs.timesToRepeat > 1 then
      var text := Repeat(Join(rs.newChars), rs.timesToRepeat - 1);
      s.(transformations := s.transformations + [InsertText(text, position, Some(PositionDiff(0, -1)))],
         mode := Normal)
    else
      s.(cursorStopPosition := s.cursorStopPosition.GetLeft(), mode := Normal)
  }

  /** <Insert> in Replace mode: only the mode changes. */
  function ReplaceModeToInsertMode(s: Session): (r: Session)
    ensures r.mode == Insert
    ensures r.(mode := s.mode) == s
  {
    s.(mode := Insert)
  }

  /**
   * <BS> in Replace mode, as written. At or before the replace origin the
   * origin and the selection start move one column left; the assignment meant
   * for the cursor's stop position goes to a misspelt property, so that
   * position is left as it was. Past the original text the character left of
   * the cursor is deleted; otherwise the original character is put back.
   */
  function BackspaceInReplaceMode(s: Session, position: Position): (r: Session)
    requires s.replaceState.Some?
    ensures r.mode == s.mode && r.cursorStopPosition == s.cursorStopPosition && r.replaceState.Some?
    ensures var rs, rs' := s.replaceState.value, r.replaceState.value;
      // the stack of typed keys loses its top, and nothing else in it changes
      && rs'.newChars == Pop(rs.newChars)
      && rs'.originalChars == rs.originalChars
      && rs'.timesToRepeat == rs.timesToRepeat
      && if position.IsBeforeOrEqual(rs.replaceCursorStartPosition) then
           && r.transformations == s.transformations
           && r.cursorStartPosition == position.GetLeft()
           && rs'.replaceCursorStartPosition == position.GetLeft()
         else
           && r.cursorStartPosition == s.cursorStartPosition
           && rs'.replaceCursorStartPosition == rs.replaceCursorStartPosition
           && if PastOriginalText(position, rs) then
                r.transformations == s.transformations + [DeleteText(position)]
              else
                // the restored character is in range: 1 <= character <= |originalChars|
                && 1 <= position.character <= |rs.originalChars|
                && r.transformations == s.transformations
                     + [ReplaceText([rs.originalChars[position.character - 1]],
                                    Range(position.GetLeft(), position), Some(PositionDiff(0, -1)))]
  {
    var rs := s.replaceState.value;
    var popped := rs.(newChars := Pop(rs.newChars));
    if position.IsBeforeOrEqual(rs.replaceCursorStartPosition) then
      var newPosition := position.GetLeft();
      s.(cursorStartPosition := newPosition,
         replaceState := Some(popped.(replaceCursorStartPosition := newPosition)))
    else if PastOriginalText(position, rs) then
      s.(transformations := s.transformations + [DeleteText(position)],
         replaceState := Some(popped))
    else
      var restore := ReplaceText([rs.originalChars[position.character - 1]],
                                 Range(position.GetLeft(), position), Some(PositionDiff(0, -1)));
      s.(transformations := s.transformations + [restore], replaceState := Some(popped))
  }

  /**
   * <BS> in Replace mode as evidently intended: at or before the replace
   * origin the cursor (both ends) and the origin move one column left together;
   * elsewhere it behaves as the code as written.
   */
  function BackspaceIntended(s: Session, position: Position): (r: Session)
    requires s.replaceState.Some?
    ensures r.mode == s.mode && r.replaceState.Some?
    ensures var rs, rs' := s.replaceState.value, r.replaceState.value;
      // the stack of typed keys loses its top, and nothing else in it changes but the origin
      && rs'.newChars == Pop(rs.newChars)
      && rs'.originalChars == rs.originalChars
      && rs'.timesToRepeat == rs.timesToRepeat
      && if position.IsBeforeOrEqual(rs.replaceCursorStartPosition) then
           // the cursor stays collapsed and moves left with the origin; nothing is queued
           && r.cursorStopPosition == r.cursorStartPosition == rs'.replaceCursorStartPosition == position.GetLeft()
           && r.transformations == s.transformations
         else
           && r.cursorStopPosition == s.cursorStopPosition
           && r.cursorStartPosition == s.cursorStartPosition
           && rs'.replaceCursorStartPosition == rs.replaceCursorStartPosition
           && if PastOriginalText(position, rs) then
                r.transformations == s.transformations + [DeleteText(position)]
              else
                && 1 <= position.character <= |rs.originalChars|
                && r.transformations == s.transformations
                     + [ReplaceText([rs.originalChars[position.character - 1]],
                                    Range(position.GetLeft(), position), Some(PositionDiff(0, -1)))]
  {
    var written := BackspaceInReplaceMode(s, position);
    if position.IsBeforeOrEqual(s.replaceState.value.replaceCursorStartPosition) then
      written.(cursorStopPosition := position.GetLeft())
    else
      written
  }

  /**
   * A printable key in Replace mode: overwrite the character under the cursor
   * and step right, or insert when there is nothing to overwrite (line end or
   * a newline key). The key is pushed onto the stack of typed keys.
   */
  function ReplaceInReplaceMode(s: Session, position: Position, key: string, lineLength: nat): (r: Session)
    requires s.replaceState.Some?
    ensures r.mode == s.mode && r.cursorStopPosition == s.cursorStopPosition
    ensures r.cursorStartPosition == s.cursorStartPosition && r.replaceState.Some?
    ensures var rs, rs' := s.replaceState.value, r.replaceState.value;
      && rs'.newChars == rs.newChars + [key]
      && rs' == rs.(newChars := rs'.newChars)
    ensures |r.transformations| == |s.transformations| + 1 && r.transformations[..|s.transformations|] == s.transformations
    ensures var t := r.transformations[|s.transformations|];
      if !position.IsLineEnd(lineLength) && key != "\n" then
        // overwrite exactly the one character under the cursor, cursor one right
        t == ReplaceText(key, Range(position, Position(position.line, position.character + 1)), Some(PositionDiff(0, 1)))
      else
        t == InsertText(key, position, None)
  {
    var rs := s.replaceState.value;
    var t := if !position.IsLineEnd(lineLength) && key != "\n" then
        ReplaceText(key, Range(position, position.GetRight(lineLength)), Some(PositionDiff(0, 1)))
      else
        InsertText(key, position, None);
    s.(transformations := s.transformations + [t],
       replaceState := Some(rs.(newChars := rs.newChars + [key])))
  }

  // ---------------------------------------------------------------------------
  // The commands' exec methods

  /** ExitReplaceMode.exec. The `!` on replaceState is the caller's guarantee. */
  method ExecExitReplaceMode(position: Position, vimState: VimState)
    requires vimState.replaceState != null
    modifies vimState
    ensures vimState.replaceState == old(vimState.replaceState)
    ensures vimState.Snapshot() == ExitReplaceMode(old(vimState.Snapshot()), position)
  {
    var replaceState := vimState.replaceState;
    if replaceState.timesToRepeat > 1 {
      var text := Repeat(Join(replaceState.newChars), replaceState.timesToRepeat - 1);
      vimState.transformations := vimState.transformations + [InsertText(text, position, Some(PositionDiff(0, -1)))];
    } else {
      vimState.cursorStopPosition := vimState.cursorStopPosition.GetLeft();
    }
    vimState.mode := Normal;
  }

  /** ReplaceModeToInsertMode.exec. */
  method ExecReplaceModeToInsertMode(position: Position, vimState: VimState)
    modifies vimState
    ensures vimState.replaceState == old(vimState.replaceState)
    ensures vimState.Snapshot() == ReplaceModeToInsertMode(old(vimState.Snapshot()))
  {
    vimState.mode := Insert;
  }

  /** BackspaceInReplaceMode.exec, as written (see BackspaceInReplaceMode). */
  method ExecBackspaceInReplaceMode(position: Position, vimState: VimState)
    requires vimState.replaceState != null
    modifies vimState, vimState.replaceState
    ensures vimState.replaceState == old(vimState.replaceState)
    ensures vimState.Snapshot() == BackspaceInReplaceMode(old(vimState.Snapshot()), position)
  {
    var replaceState := vimState.replaceState;
    if position.IsBeforeOrEqual(replaceState.replaceCursorStartPosition) {
      var newPosition := position.GetLeft();
      // The source assigns newPosition to a misspelt property here, not to cursorStopPosition.
      vimState.cursorStartPosition := newPosition;
      replaceState.replaceCursorStartPosition := newPosition;
    } else if position.line > replaceState.replaceCursorStartPosition.line
           || position.character > |replaceState.originalChars| {
      vimState.transformations := vimState.transformations + [DeleteText(position)];
    } else {
      var restore := ReplaceText([replaceState.originalChars[position.character - 1]],
                                 Range(position.GetLeft(), position), Some(PositionDiff(0, -1)));
      vimState.transformations := vimState.transformations + [restore];
    }
    replaceState.newChars := Pop(replaceState.newChars);
  }

  /**
   * ReplaceInReplaceMode.exec: `key` is the key that matched `<character>`,
   * `lineLength` the length of the cursor's line, read from the buffer.
   */
  method ExecReplaceInReplaceMode(position: Position, vimState: VimState, key: string, lineLength: nat)
    requires vimState.replaceState != null
    modifies vimState, vimState.replaceState
    ensures vimState.replaceState == old(vimState.replaceState)
    ensures vimState.Snapshot() == ReplaceInReplaceMode(old(vimState.Snapshot()), position, key, lineLength)
  {
    var replaceState := vimState.replaceState;
    if !position.IsLineEnd(lineLength) && key != "\n" {
      vimState.transformations := vimState.transformations
        + [ReplaceText(key, Range(position, position.GetRight(lineLength)), Some(PositionDiff(0, 1)))];
    } else {
      vimState.transformations := vimState.transformations + [InsertText(key, position, None)];
    }
    replaceState.newChars := replaceState.newChars + [key];
  }

  // ---------------------------------------------------------------------------
  // Registration data

  /** What a registered action declares: the modes it runs in, its key sequences, dot-repeatability. */
  datatype ActionSpec = ActionSpec(name: string, modes: seq<Mode>, keys: seq<seq<string>>, canBeRepeatedWithDot: bool)

  const ExitReplaceModeAction := ActionSpec("ExitReplaceMode", [Replace], [["<Esc>"], ["<C-c>"], ["<C-[>"]], false)
  const ReplaceModeToInsertModeAction := ActionSpec("ReplaceModeToInsertMode", [Replace], [["<Insert>"]], false)
  const BackspaceInReplaceModeAction := ActionSpec("BackspaceInReplaceMode", [Replace], [["<BS>"], ["<C-h>"]], false)
  const ReplaceInReplaceModeAction := ActionSpec("ReplaceInReplaceMode", [Replace], [["<character>"]], true)

  const ReplaceActions := [ExitReplaceModeAction, ReplaceModeToInsertModeAction,
                           BackspaceInReplaceModeAction, ReplaceInReplaceModeAction]

  /** Every Replace-mode action runs in Replace mode only; only typing a character is dot-repeatable. */
  lemma ReplaceActionsRegistration()
    ensures forall a :: a in ReplaceActions ==> a.modes == [Replace]
    ensures forall a :: a in ReplaceActions ==> (a.canBeRepeatedWithDot <==> a == ReplaceInReplaceModeAction)
  {
  }

  /** No key sequence is bound to two different Replace-mode actions. */
  lemma ReplaceActionKeysDisjoint()
    ensures forall i, j, k :: 0 <= i < j < |ReplaceActions| && k in ReplaceActions[i].keys ==> k !in ReplaceActions[j].keys
  {
  }

  // ---------------------------------------------------------------------------
  // Lemmas

  /**
   * As written, backspacing at the replace origin with a collapsed cursor
   * splits the cursor: the selection start moves left, the stop position does not.
   */
  lemma BackspaceAtOriginSplitsCursor(s: Session, position: Position)
    requires s.replaceState.Some?
    requires s.cursorStopPosition == s.cursorStartPosition == position
    requires position.IsBeforeOrEqual(s.replaceState.value.replaceCursorStartPosition)
    requires position.character > 0
    ensures var r := BackspaceInReplaceMode(s, position);
      r.cursorStopPosition == position && r.cursorStartPosition != r.cursorStopPosition
  {
  }

  /**
   * The intended backspace keeps a collapsed cursor collapsed in every branch,
   * and at the origin moves it, with the origin, one column left.
   */
  lemma IntendedBackspaceKeepsCursorTogether(s: Session, position: Position)
    requires s.replaceState.Some?
    requires s.cursorStopPosition == s.cursorStartPosition == position
    ensures var r := BackspaceIntended(s, position);
      && r.cursorStopPosition == r.cursorStartPosition
      && (position.IsBeforeOrEqual(s.replaceState.value.replaceCursorStartPosition) ==>
            r.cursorStopPosition == position.GetLeft() == r.replaceState.value.replaceCursorStartPosition)
  {
  }

  /** Away from the replace origin the misspelling has no effect: as written and as intended agree. */
  lemma IntendedAgreesAwayFromOrigin(s: Session, position: Position)
    requires s.replaceState.Some?
    requires !position.IsBeforeOrEqual(s.replaceState.value.replaceCursorStartPosition)
    ensures BackspaceIntended(s, position) == BackspaceInReplaceMode(s, position)
  {
  }

  /** At the origin the two differ in the cursor's stop position only. */
  lemma IntendedDiffersAtOriginInStopOnly(s: Session, position: Position)
    requires s.replaceState.Some?
    requires position.IsBeforeOrEqual(s.replaceState.value.replaceCursorStartPosition)
    ensures BackspaceIntended(s, position).(cursorStopPosition := s.cursorStopPosition)
         == BackspaceInReplaceMode(s, position)
  {
  }

  /** A backspace right after typing a key takes exactly that key off the stack. */
  lemma TypeThenBackspaceRestoresStack(s: Session, position: Position, key: string, lineLength: nat, position': Position)
    requires s.replaceState.Some?
    ensures var r := BackspaceInReplaceMode(ReplaceInReplaceMode(s, position, key, lineLength), position');
      r.replaceState.value.newChars == s.replaceState.value.newChars
  {
  }
}

/** A client of the exec methods. */
module ReplaceCommandsClient {
  import opened Wrappers
  import opened Positions
  import opened Modes
  import opened Transformations
  import opened ReplaceCommands

  /**
   * The exec methods on live objects: on "abc" with the cursor on 'b', type X,
   * backspace, then <Esc>. Returns the snapshots after each command.
   */
  method OverwriteThenBackspace() returns (typed: Session, back: Session, exited: Session)
    ensures typed.replaceState.Some? && typed.replaceState.value.newChars == ["X"]
    ensures typed.transformations == [ReplaceText("X", Range(Position(0, 1), Position(0, 2)), Some(PositionDiff(0, 1)))]
    ensures back.replaceState.Some? && back.replaceState.value.newChars == []
    ensures back.transformations == [ReplaceText("b", Range(Position(0, 1), Position(0, 2)), Some(PositionDiff(0, -1)))]
    ensures back.mode == Replace
    ensures exited.mode == Normal && exited.cursorStopPosition == Position(0, 0) && exited.transformations == []
  {
    var origin := Position(0, 1);
    var replaceState := new ReplaceState(origin, "abc", 1);
    var vimState := new VimState(Replace, origin, replaceState);

    ExecReplaceInReplaceMode(origin, vimState, "X", 3);
    typed := vimState.Snapshot();

    // the pipeline would now apply the batch and move the cursor to column 2
    vimState.transformations := [];
    vimState.cursorStopPosition, vimState.cursorStartPosition := Position(0, 2), Position(0, 2);
    ExecBackspaceInReplaceMode(Position(0, 2), vimState);
    back := vimState.Snapshot();

    // and back to column 1 with an empty batch
    vimState.transformations := [];
    vimState.cursorStopPosition, vimState.cursorStartPosition := Position(0, 1), Position(0, 1);
    ExecExitReplaceMode(Position(0, 1), vimState);
    exited := vimState.Snapshot();
  }
}

=== FILE: strings.dfy ===
/**
 * The two JavaScript string operations the Replace-mode commands rely on:
 * Array.prototype.join('') over an array of strings and String.prototype.repeat.
 */
module Strings {

  /** `parts.join('')`: the parts written one after the other. */
  function Join(parts: seq<string>): (r: string)
    ensures |r| == TotalLength(parts)
  {
    if parts == [] then "" else parts[0] + Join(parts[1..])
  }

  /** Joining single characters gives one character per part. */
  lemma {:induction false} JoinOfCharacters(parts: seq<string>)
    requires forall i :: 0 <= i < |parts| ==> |parts[i]| == 1
    ensures |Join(parts)| == |parts|
  {
    if parts != [] {
      JoinOfCharacters(parts[1..]);
    }
  }

  /** The summed lengths of the parts. */
  function TotalLength(parts: seq<string>): nat
  {
    if parts == [] then 0 else |parts[0]| + TotalLength(parts[1..])
  }

  /** Joining two arrays one after the other joins their joins. */
  lemma {:induction false} JoinAppend(a: seq<string>, b: seq<string>)
    ensures Join(a + b) == Join(a) + Join(b)
  {
    if a == [] {
      assert a + b == b;
    } else {
      assert (a + b)[1..] == a[1..] + b;
      JoinAppend(a[1..], b);
    }
  }

  /** Pushing one more string onto the array appends it to the join. */
  lemma JoinPush(parts: seq<string>, s: string)
    ensures Join(parts + [s]) == Join(parts) + s
  {
    JoinAppend(parts, [s]);
    assert Join([s]) == s + Join([]);
  }

  /** `s.repeat(count)`: `count` copies of `s` one after the other. */
  function Repeat(s: string, count: nat): (r: string)
    ensures |r| == count * |s|
  {
    if count == 0 then ""
    else
      var rest := Repeat(s, count - 1);
      assert count * |s| == |s| + (count - 1) * |s|;
      s + rest
  }

  /** Copies concatenate: `s.repeat(a + b) == s.repeat(a) + s.repeat(b)`. */
  lemma {:induction false} RepeatAppend(s: string, a: nat, b: nat)
    ensures Repeat(s, a + b) == Repeat(s, a) + Repeat(s, b)
  {
    if a > 0 {
      RepeatAppend(s, a - 1, b);
      assert a + b - 1 == (a - 1) + b;
    }
  }
}

=== FILE: transformations.dfy ===
/** The declarative edit requests an action queues for the transformer pipeline. */
module Transformations {
  import opened Wrappers
  import opened Positions

  datatype Transformation =
      /** Insert `text` at `position`, then move the cursor by `diff`. */
    | InsertText(text: string, position: Position, diff: Option<PositionDiff>)
      /** Delete the character just left of `position`. */
    | DeleteText(position: Position)
      /** Replace `range` by `text`, then move the cursor by `diff`. */
    | ReplaceText(text: string, range: Range, diff: Option<PositionDiff>)
}

=== FILE: wrappers.dfy ===
/** A value that may be absent: the model's stand-in for TypeScript's optional fields. */
module Wrappers {
  datatype Option<+T> = None | Some(value: T)
}
